=== FILE: README.md ===
# OrmLite special value converters, modelled in Dafny

This project models the four "special" converters of ServiceStack.OrmLite
(`src/ServiceStack.OrmLite/Converters/SpecialConverters.cs`). Each one decides how a typed
.NET value is written to the database, either as an inline SQL literal (`ToQuotedString`)
or as a bound parameter (`ToDbValue`), and how a raw database value is read back (`FromDbValue`):

- `EnumConverter` binds a value whose text is an integer as that raw integer when the field is
  a flags enum or a number standing in for an enum. For a field stored by name, a value whose
  text is an integer is first replaced by the enum member with that value (`Enum.ToObject`).
  The member, or any value whose text is not an integer, is then bound as the serializer's
  text with its surrounding quotes trimmed. A combined flags member such as `Read|Write` has
  the text `Read, Write`, so it too is bound as trimmed serializer text.
- `RowVersionConverter` keeps a concurrency token in a `BIGINT` column and reads it back as a `ulong`.
- `ReferenceTypeConverter` and `ValueTypeConverter` store objects in the dialect's
  maximum-length string column. `ReferenceTypeConverter` binds serialized text, and passes a
  `byte[]` through to the driver untouched. `ValueTypeConverter` binds the value's own text
  deserialized into the field type.

Structure:

- `wrappers.dfy`: `Option` (a .NET `null`) and `Result` (a thrown exception).
- `long_text.dfy`: `long.TryParse` and `long.ToString()` over decimal text.
- `quote_trim.dfy`: `string.Trim('"')`.
- `clr_types.dfy`: the declared field type, which replaces reflection; the boxed runtime value; the exceptions.
- `collaborators.dfy`: the services the converters call but do not implement. These are the
  string serializer, the dialect provider, `Enum.ToObject`/`Enum.Parse`, `Convert.ChangeType`,
  `ConvertNumber` and an object's `ToString()`. Each is a function-valued field of `Env`. None
  of them is given any law beyond its signature, so every property below holds whatever those
  services return. Some of them can never throw; see "Left out".
- One module per converter, named after the class.

The source calls `value.ToString()` without a null check. A `null` there ends in a
`NullReference` failure rather than being excluded by a precondition. The same holds for
`Trim` applied to a `null` serializer result. The `(ulong)` unboxing in `FromDbRowVersion`
fails with `NullReference` when `ConvertNumber` returns `null`, and with `InvalidCast` when it
returns any other non-`ulong` value. Every other failure comes from a collaborator and is
passed through unchanged. Consequences for `null`:

- `EnumConverter.ToQuotedString` asks for the text only of a field stored by name. A `null`
  value for a flags-like field therefore reaches the serializer, and fails only if the
  serializer returns `null`.
- `ReferenceTypeConverter.FromDbValue` does not pass a `null` read from the database through:
  it calls `value.ToString()` first and fails.
- `EnumConverter.FromDbValue` sends `null` to `Convert.ChangeType`.
- `ValueTypeConverter.FromDbValue` sends `null` to the dialect's default coercion.

`ValueTypeConverter.ToDbValue` deserializes the value's own text into the field type. It is
therefore the very function `ReferenceTypeConverter.FromDbValue` computes
(`ValueTypeConverter.WriteIsReferenceRead`).

## Model

| member | source | states |
|---|---|---|
| EnumConverter.IsFlagsLike | src/ServiceStack.OrmLite/Converters/SpecialConverters.cs:11-12 | A field is flags-like exactly when its type is a flags enum or a non-enum numeric type. Both write paths use this one rule (the same expression appears at lines 25-26). |
| EnumConverter.ToQuotedString | src/ServiceStack.OrmLite/Converters/SpecialConverters.cs:9-21 | A `null` value fails for a field stored by name. For a flags-like field it fails exactly when the serializer returns `null` for it. A successful flags-like literal never begins or ends with a double quote. Any other successful literal is the dialect's quoting of a name with no boundary quote. |
| EnumConverter.FlagsLiteralIsBareText | src/ServiceStack.OrmLite/Converters/SpecialConverters.cs:15-20 | For a flags-like field, `null` included, no value is reinterpreted: the result is the same whatever `Enum.ToObject` does. The literal is the serializer's text of the original value, trimmed and not quoted. A `null` serializer result fails. |
| EnumConverter.ToDbValue | src/ServiceStack.OrmLite/Converters/SpecialConverters.cs:23-41 | A `null` value fails. A result is `null`, an integer, or text with no boundary quote. An integer result occurs only for flags-like fields. |
| EnumConverter.TrimmedText | src/ServiceStack.OrmLite/Converters/SpecialConverters.cs:37-40 | On the serializer path the result is `null` exactly when the serializer returned `null`. Otherwise it is the serializer's text with only double quotes cut from either end and none left at either end. By `QuoteTrim.TrimQuotesUnique` that is exactly `Trim('"')` of the serializer's text. |
| EnumConverter.FlagsIntegerBypassesSerializer | src/ServiceStack.OrmLite/Converters/SpecialConverters.cs:29-32 | A flags-like field whose value's text parses as a `long` yields that `long`. The result is the same for any serializer, so the serializer is never consulted. |
| EnumConverter.FlagsLongStoredRaw | src/ServiceStack.OrmLite/Converters/SpecialConverters.cs:28-32 | Every `long`, boxed or as its decimal text, is bound unchanged as an integer for a flags-like field. |
| EnumConverter.NumericCodeStoredAsInteger | src/ServiceStack.OrmLite/Converters/SpecialConverters.cs:25-32 | An `int` field (a number used in place of an enum) holding a boxed `int` whose text is `7` binds the integer 7. |
| EnumConverter.FlagsMemberStoredAsText | src/ServiceStack.OrmLite/Converters/SpecialConverters.cs:29-40 | A combined flags member whose text is `Read, Write` does not parse as a `long`. It is bound as the serializer's trimmed text, and its literal is that same text. |
| EnumConverter.WritePathsAgree | src/ServiceStack.OrmLite/Converters/SpecialConverters.cs:9-41 | For a name-stored field the literal is the dialect's quoting of exactly the parameter text, and the two paths fail with the same error. For a flags-like field with non-integer text, the literal equals the parameter text. A `null` parameter means the literal fails. |
| EnumConverter.NameStoredIntegerWrite | src/ServiceStack.OrmLite/Converters/SpecialConverters.cs:15-39 | Take a field stored by name and a value whose text is the integer `n`. A failing `Enum.ToObject(t, n)` fails both write paths with its error. Otherwise both paths use the member's serializer text, trimmed: the parameter is that text and the literal is its dialect quoting. A `null` serializer result binds `null` and fails the literal. |
| EnumConverter.NameStoredTextWrite | src/ServiceStack.OrmLite/Converters/SpecialConverters.cs:15-39 | Take a field stored by name and a non-null value whose text is not an integer. `Enum.ToObject` is never consulted. Both paths use the value's own serializer text, trimmed: the parameter is that text and the literal is its dialect quoting. A `null` serializer result binds `null` and fails the literal. |
| EnumConverter.FlagsTextWrite | src/ServiceStack.OrmLite/Converters/SpecialConverters.cs:23-40 | Take a flags-like field and a non-null value whose text is not an integer. `Enum.ToObject` is never consulted. The value's own serializer text is bound with its surrounding double quotes trimmed; a `null` serializer result binds `null`. |
| EnumConverter.StoredTextIsTrimmed | src/ServiceStack.OrmLite/Converters/SpecialConverters.cs:37-40 | Bound text is already trimmed: trimming it again leaves it unchanged. |
| EnumConverter.FromDbValue | src/ServiceStack.OrmLite/Converters/SpecialConverters.cs:43-50 | Text is parsed as a member name with `ignoreCase` set. Every non-text value, `null` included, goes to `Convert.ChangeType` with the field's type code. |
| EnumConverter.ReadAfterWrite | src/ServiceStack.OrmLite/Converters/SpecialConverters.cs:23-50 | For a flags-like field, a `long` written boxed or as its text is read back as `Convert.ChangeType` of that same `long` to the field's type code. |
| EnumConverter.NameStoredReadAfterWrite | src/ServiceStack.OrmLite/Converters/SpecialConverters.cs:23-50 | For a field stored by name, reading back what was written is a case-insensitive member lookup of exactly the trimmed serializer text of the member that was written. |
| EnumConverter.PlainMemberStoredByName | src/ServiceStack.OrmLite/Converters/SpecialConverters.cs:15-20 | Suppose a plain enum member's text is `Red` and the serializer writes it as `"Red"`. Then it binds as `Red`, and its literal is the dialect's quoting of `Red`. |
| QuoteTrim.TrimQuotes | src/ServiceStack.OrmLite/Converters/SpecialConverters.cs:18 | `Trim('"')` leaves no double quote at either end and never lengthens its input. |
| QuoteTrim.TrimQuotesPadded | src/ServiceStack.OrmLite/Converters/SpecialConverters.cs:18 | The trimmed text is an infix of the input. Everything cut from either side is a double quote. |
| QuoteTrim.TrimQuotesUnique | src/ServiceStack.OrmLite/Converters/SpecialConverters.cs:39 | Any quote-padded infix without a boundary quote is the trim result, so the trim is determined by those two properties. |
| QuoteTrim.TrimQuotesIdempotent | src/ServiceStack.OrmLite/Converters/SpecialConverters.cs:39 | Trimming twice equals trimming once. |
| QuoteTrim.TrimQuotedWord | src/ServiceStack.OrmLite/Converters/SpecialConverters.cs:18 | The serializer's quoted `"Red"` trims to `Red`. |
| LongText.TryParse | src/ServiceStack.OrmLite/Converters/SpecialConverters.cs:15 | `long.TryParse` accepts only an optional sign followed by digits. A negative result needs a minus sign. |
| LongText.Digits | src/ServiceStack.OrmLite/Converters/SpecialConverters.cs:29 | A `long`'s text is a non-empty digit string with no leading zero. |
| LongText.Render | src/ServiceStack.OrmLite/Converters/SpecialConverters.cs:15 | `long.ToString()` always produces canonical text: no plus sign, no leading zero, no `-0`. |
| LongText.RenderRoundTrip | src/ServiceStack.OrmLite/Converters/SpecialConverters.cs:29 | Parsing a `long`'s own text gives back that `long`. |
| LongText.RenderExactlyCanonical | src/ServiceStack.OrmLite/Converters/SpecialConverters.cs:29 | Text parses to `n` in canonical form (no plus sign, no leading zero, no `-0`) if and only if it is `n`'s own text. |
| LongText.TryParseDigits | src/ServiceStack.OrmLite/Converters/SpecialConverters.cs:29 | Every digit string, bare or after `+` or `-`, leading zeros included, parses to its value exactly when that value fits a `long`. Otherwise it is rejected. |
| LongText.NonCanonicalLiterals | src/ServiceStack.OrmLite/Converters/SpecialConverters.cs:29 | `+7` and `007` parse as 7, and `-0` parses as 0. |
| Collaborators.ToText | src/ServiceStack.OrmLite/Converters/SpecialConverters.cs:15 | `value.ToString()` fails exactly on `null`. |
| RowVersionConverter.ColumnDefinition | src/ServiceStack.OrmLite/Converters/SpecialConverters.cs:55-58 | The column is `BIGINT` for every dialect. |
| RowVersionConverter.FromDbRowVersion | src/ServiceStack.OrmLite/Converters/SpecialConverters.cs:60-63 | It succeeds with `u` exactly when `ConvertNumber` produces a boxed `ulong` `u`. A failure of `ConvertNumber` is passed through. A `null` from `ConvertNumber` fails with `NullReference` at the unboxing; any other non-`ulong` value fails with `InvalidCast`. |
| RowVersionConverter.FromDbValue | src/ServiceStack.OrmLite/Converters/SpecialConverters.cs:65-70 | `null` reads as `null`. Any other value is `ConvertNumber` to `ulong`. |
| RowVersionConverter.FromDbValueAgreesWithRowVersion | src/ServiceStack.OrmLite/Converters/SpecialConverters.cs:60-70 | On every non-null value the generic read path yields `ulong` `u` if and only if `FromDbRowVersion` yields `u`. |
| ReferenceTypeConverter.ColumnDefinition | src/ServiceStack.OrmLite/Converters/SpecialConverters.cs:75-78 | The column is the dialect string converter's maximum-length definition. |
| ReferenceTypeConverter.MaxColumnDefinition | src/ServiceStack.OrmLite/Converters/SpecialConverters.cs:80-83 | It is the dialect string converter's maximum-length definition. |
| ReferenceTypeConverter.GetColumnDefinition | src/ServiceStack.OrmLite/Converters/SpecialConverters.cs:85-90 | A declared length goes to the length-bounded base definition. Without one the result equals both `MaxColumnDefinition` and `ColumnDefinition`. |
| ReferenceTypeConverter.ToDbValue | src/ServiceStack.OrmLite/Converters/SpecialConverters.cs:97-104 | A `byte[]` field's value is bound unchanged. Any other field binds the serializer's text, or `null` when the serializer returns `null`. |
| ReferenceTypeConverter.ToQuotedString | src/ServiceStack.OrmLite/Converters/SpecialConverters.cs:92-95 | The literal is the dialect's quoting of the serializer's untrimmed text, or of `null`. It does not depend on the field type. |
| ReferenceTypeConverter.LiteralQuotesParameter | src/ServiceStack.OrmLite/Converters/SpecialConverters.cs:92-104 | For a non-`byte[]` field the literal is the dialect's quoting of exactly the bound text, with no quote stripping. |
| ReferenceTypeConverter.FromDbValue | src/ServiceStack.OrmLite/Converters/SpecialConverters.cs:106-110 | `null` fails at `ToString()`. Any other value's `ToString()` text is deserialized into the field type; text is deserialized as itself. |
| ReferenceTypeConverter.RoundTripIsSerializerRoundTrip | src/ServiceStack.OrmLite/Converters/SpecialConverters.cs:97-110 | Writing then reading a non-`byte[]` value equals the serializer's own deserialize-of-serialize. The converter preserves a value whenever the serializer does. |
| ReferenceTypeConverter.ByteArrayReadIgnoresContent | src/ServiceStack.OrmLite/Converters/SpecialConverters.cs:97-110 | A `byte[]` is bound unchanged. Reading one back deserializes the text `System.Byte[]`, so any two byte arrays read back alike. |
| ValueTypeConverter.ColumnDefinition | src/ServiceStack.OrmLite/Converters/SpecialConverters.cs:115-118 | The column is the dialect string converter's maximum-length definition. |
| ValueTypeConverter.MaxColumnDefinition | src/ServiceStack.OrmLite/Converters/SpecialConverters.cs:120-123 | It is the dialect string converter's maximum-length definition. |
| ValueTypeConverter.GetColumnDefinition | src/ServiceStack.OrmLite/Converters/SpecialConverters.cs:125-130 | A declared length goes to the length-bounded base definition. Without one the result equals both `MaxColumnDefinition` and `ColumnDefinition`. |
| ValueTypeConverter.ToQuotedString | src/ServiceStack.OrmLite/Converters/SpecialConverters.cs:132-135 | The literal is the dialect's quoting of the serializer's untrimmed text, or of `null`. It does not depend on the field type. |
| ValueTypeConverter.SharesReferenceStorage | src/ServiceStack.OrmLite/Converters/SpecialConverters.cs:115-135 | The column definitions and the inline literal coincide with the reference-type converter's. |
| ValueTypeConverter.ToDbValue | src/ServiceStack.OrmLite/Converters/SpecialConverters.cs:137-141 | `null` fails at `ToString()`. Any other value, a struct included, binds its `ToString()` text deserialized into the field type rather than serialized. |
| ValueTypeConverter.WriteIsReferenceRead | src/ServiceStack.OrmLite/Converters/SpecialConverters.cs:137-141 | The bound value is exactly what the reference-type converter would read from the same input. |
| ValueTypeConverter.FromDbValue | src/ServiceStack.OrmLite/Converters/SpecialConverters.cs:143-146 | Reading is exactly the dialect's default coercion of the value to the field type, `null` included. |

## Left out

- The behaviour of the string serializer, `GetQuotedValue`, the dialect's `FromDbValue`,
  `Enum.ToObject`, `Enum.Parse`, `Convert.ChangeType` and `ConvertNumber`. Their code is not
  part of this model, so they are uninterpreted. In particular no round-trip law of the
  serializer is assumed. Round trips through a converter are stated relative to the serializer's
  own round trip.
- Overflow or negative input in `ConvertNumber`, and so the failure of a row version read on
  a negative number. The widening lives in a base class that is not part of this model.
- The base classes `StringConverter` and `OrmLiteConverter`. This includes the enum converter's
  `base(255)` column, the length-bounded column definition (one uninterpreted function of the
  length), and the numeric write paths the row-version converter inherits.
- .NET reflection. `IsEnumFlags`, `IsNumericType` and `GetTypeCode` are read off a field-type
  datatype. A nullable numeric type is not distinguished from its underlying numeric type.
- Boxed values other than `string`, `long`, `ulong` and `byte[]`, such as an `int` or an enum
  member. They are opaque objects whose text comes from a collaborator.
- Serializer exceptions: `SerializeToString` is total and may return `null`.
- Exceptions from `GetQuotedValue` and from an object's `ToString()`. Both are total functions
  here. In particular, `GetQuotedValue(null)`, which the reference- and value-type literals
  reach when the serializer returns `null`, always yields some text rather than possibly throwing.
- LongText.TryParse: leading and trailing white space, culture-specific sign symbols and
  non-ASCII digits are not accepted. The text is an optional `+` or `-` followed by ASCII digits;
  leading zeros and `-0` are accepted, as .NET accepts them (`LongText.TryParseDigits`).
- Thread safety and database transport. The converters are stateless and pure, and the model
  is sequential.

=== FILE: clr_types.dfy ===
/**
 * The .NET notions the converters inspect: a field's declared type (replacing reflection
 * over `System.Type`), the boxed runtime values that flow through them, and the exceptions
 * a conversion can end in.
 */
module ClrTypes {
  import opened LongText

  /** `System.TypeCode`. */
  datatype TypeCode =
    | Empty | Object | DBNull | Boolean | Char
    | SByte | Byte | Int16 | UInt16 | Int32 | UInt32 | Int64 | UInt64
    | Single | Double | Decimal | DateTime | String
  {
    predicate IsIntegral() {
      SByte? || Byte? || Int16? || UInt16? || Int32? || UInt32? || Int64? || UInt64?
    }

    predicate IsNumeric() {
      IsIntegral() || Single? || Double? || Decimal?
    }
  }

  /** The type codes an enum may have as its underlying type. */
  type IntegralCode = c: TypeCode | c.IsIntegral() witness Int32

  /** The type codes of the primitive numeric types. */
  type NumericCode = c: TypeCode | c.IsNumeric() witness Int32

  /** The type codes of everything that is not a primitive number. */
  type OtherCode = c: TypeCode | !c.IsNumeric() witness Object

  /**
   * A field's declared type, classified once instead of asked of reflection at every call.
   * `ByteArray` is `byte[]`; `Other` is any other type (string, DateTime, a class or a struct).
   */
  datatype FieldType =
    | PlainEnum(name: string, underlying: IntegralCode)
    | FlagsEnum(name: string, underlying: IntegralCode)
    | Numeric(code: NumericCode)
    | ByteArray
    | Other(name: string, otherCode: OtherCode)
  {
    /** `Type.IsEnum`. */
    predicate IsEnum() {
      PlainEnum? || FlagsEnum?
    }

    /** `IsEnumFlags()`: an enum carrying `[Flags]`. */
    predicate IsEnumFlags() {
      FlagsEnum?
    }

    /** `IsNumericType()`: a primitive number, or an enum that is treated as one (a flags enum). */
    predicate IsNumericType() {
      Numeric? || FlagsEnum?
    }

    /** `Type.GetTypeCode()`: an enum reports the code of its underlying integral type. */
    function GetTypeCode(): TypeCode {
      match this
      case PlainEnum(_, u) => u
      case FlagsEnum(_, u) => u
      case Numeric(c) => c
      case ByteArray => Object
      case Other(_, c) => c
    }
  }

  /**
   * A boxed runtime value, as a converter receives it from application code or from the
   * database driver. `Obj` stands for every other object (an enum member, an `int`, a struct,
   * a class instance), identified by an opaque handle.
   */
  datatype Value =
    | Null
    | Str(s: string)
    | Long(n: Int64)
    | ULong(u: UInt64)
    | Bytes(bytes: seq<bv8>)
    | Obj(handle: nat)

  /** The exceptions a conversion can end in. */
  datatype Error =
    | NullReference
    | InvalidCast
    | InvalidEnumValue(text: string)
    | NumericConversion
    | Argument
    | Deserialization(text: string)
}

=== FILE: collaborators.dfy ===
/**
 * The services the converters call but do not implement: the dialect provider, its string
 * serializer, and the .NET runtime helpers. Each is an uninterpreted function supplied from
 * outside, so every property proved about a converter holds for every choice of them.
 */
module Collaborators {
  import opened Wrappers
  import opened LongText
  import opened ClrTypes

  datatype Env = Env(
    /** `StringSerializer.SerializeToString(value)`; `None` is a `null` result. */
    serialize: Value -> Option<string>,
    /** `StringSerializer.DeserializeFromString(text, fieldType)`. */
    deserialize: (string, FieldType) -> Result<Value, Error>,
    /** `DialectProvider.GetQuotedValue(text)`; `None` is a `null` argument. */
    quote: Option<string> -> string,
    /** `DialectProvider.FromDbValue(value, fieldType)`, the dialect's default coercion. */
    dialectFromDbValue: (Value, FieldType) -> Result<Value, Error>,
    /** `DialectProvider.GetStringConverter().MaxColumnDefinition`. */
    maxStringColumn: string,
    /** `StringConverter.GetColumnDefinition(length)` for a given length. */
    boundedStringColumn: int -> string,
    /** `Enum.ToObject(fieldType, n)`. */
    enumToObject: (FieldType, Int64) -> Result<Value, Error>,
    /** `Enum.Parse(fieldType, text, ignoreCase)`. */
    enumParse: (FieldType, string, bool) -> Result<Value, Error>,
    /** `Convert.ChangeType(value, typeCode)`. */
    changeType: (Value, TypeCode) -> Result<Value, Error>,
    /** `OrmLiteConverter.ConvertNumber(targetType, value)`, the target given by its type code. */
    convertNumber: (TypeCode, Value) -> Result<Value, Error>,
    /** `ToString()` of an opaque object. */
    objectText: nat -> string
  )

  /**
   * `value.ToString()`: `None` exactly when the call would throw because the value is `null`.
   * Strings are themselves, integers their decimal text, a `byte[]` its type name.
   */
  function ToText(env: Env, v: Value): (r: Option<string>)
    ensures r.None? <==> v.Null?
  {
    match v
    case Null => None
    case Str(s) => Some(s)
    case Long(n) => Some(Render(n))
    case ULong(u) => Some(Render(u))
    case Bytes(_) => Some("System.Byte[]")
    case Obj(h) => Some(env.objectText(h))
  }

  /** A serializer result as a database value: text, or `null`. */
  function TextValue(t: Option<string>): (r: Value)
    ensures r.Null? <==> t.None?
  {
    match t
    case None => Null
    case Some(s) => Str(s)
  }
}

=== FILE: enum_converter.dfy ===
/**
 * `EnumConverter`: when a field is a flags enum or a number standing in for an enum, a value
 * whose text is an integer is bound as that raw integer. Every other value is serialized and
 * its surrounding quotes trimmed. For a field stored by name, integer text is first turned
 * into the enum member with that value.
 */
module EnumConverter {
  import opened Wrappers
  import opened LongText
  import opened QuoteTrim
  import opened ClrTypes
  import opened Collaborators

  /** The rule both write paths use to decide between integer and name storage. */
  function IsFlagsLike(t: FieldType): (flags: bool)
    ensures flags <==> t.FlagsEnum? || t.Numeric?
  {
    t.IsEnumFlags() || (!t.IsEnum() && t.IsNumericType())
  }

  /** `long.TryParse(value.ToString(), out n)`, for a non-null value. */
  function ParsedLong(env: Env, v: Value): Option<Int64> {
    match ToText(env, v)
    case None => None
    case Some(text) => TryParse(text)
  }

  /** For a field stored by name: an integer-valued input becomes the enum member with that value. */
  function ToMember(env: Env, t: FieldType, v: Value): Result<Value, Error> {
    match ParsedLong(env, v)
    case Some(n) => env.enumToObject(t, n)
    case None => Success(v)
  }

  /**
   * The member name, or the flags text, written inline into SQL. Only a field stored by name
   * asks for the value's text, so only there does a `null` value fail before serialization.
   */
  function ToQuotedString(env: Env, t: FieldType, v: Value): (r: Result<string, Error>)
    ensures v.Null? && !IsFlagsLike(t) ==> r == Failure(NullReference)
    ensures v.Null? && IsFlagsLike(t) ==> (r == Failure(NullReference) <==> env.serialize(Null).None?)
    ensures r.Success? && IsFlagsLike(t) ==> NoBoundaryQuote(r.value)
    ensures r.Success? && !IsFlagsLike(t) ==> exists name :: NoBoundaryQuote(name) && r.value == env.quote(Some(name))
  {
    var flags := IsFlagsLike(t);
    var member :=
      if flags then Success(v)
      else if v.Null? then Failure(NullReference)
      else ToMember(env, t, v);
    match member
    case Failure(e) => Failure(e)
    case Success(w) =>
      match env.serialize(w)
      case None => Failure(NullReference)
      case Some(s) =>
        var name := TrimQuotes(s);
        Success(if !flags then env.quote(Some(name)) else name)
  }

  /** The value bound as a command parameter. */
  function ToDbValue(env: Env, t: FieldType, v: Value): (r: Result<Value, Error>)
    ensures v.Null? ==> r == Failure(NullReference)
    ensures r.Success? ==> r.value.Null? || r.value.Long? || (r.value.Str? && NoBoundaryQuote(r.value.s))
    ensures r.Success? && r.value.Long? ==> IsFlagsLike(t)
  {
    if v.Null? then Failure(NullReference)
    else
      match ParsedLong(env, v)
      case Some(n) =>
        if IsFlagsLike(t) then Success(Long(n))
        else
          (match env.enumToObject(t, n)
           case Failure(e) => Failure(e)
           case Success(w) => TrimmedText(env, w))
      case None => TrimmedText(env, v)
  }

  /** The serializer's text for `w` with its quoting stripped, or `null` when it produced none. */
  function TrimmedText(env: Env, w: Value): (r: Result<Value, Error>)
    ensures r.Success? && (r.value.Null? || r.value.Str?)
    ensures r.value.Null? <==> env.serialize(w).None?
    ensures r.value.Str? ==> NoBoundaryQuote(r.value.s) && QuotePadded(env.serialize(w).value, r.value.s)
  {
    match env.serialize(w)
    case None => Success(Null)
    case Some(s) => TrimQuotesPadded(s); Success(Str(TrimQuotes(s)))
  }

  /** Text from the database is a member name, matched ignoring case; anything else is a number. */
  function FromDbValue(env: Env, t: FieldType, v: Value): (r: Result<Value, Error>)
    ensures v.Str? ==> r == env.enumParse(t, v.s, true)
    ensures !v.Str? ==> r == env.changeType(v, t.GetTypeCode())
  {
    match v
    case Str(s) => env.enumParse(t, s, true)
    case _ => env.changeType(v, t.GetTypeCode())
  }

  /** A flags-like field whose value's text is an integer stores that integer; the serializer is never consulted. */
  lemma FlagsIntegerBypassesSerializer(env: Env, t: FieldType, v: Value, n: Int64, other: Value -> Option<string>)
    requires IsFlagsLike(t) && ParsedLong(env, v) == Some(n)
    ensures ToDbValue(env, t, v) == Success(Long(n))
    ensures ToDbValue(env.(serialize := other), t, v) == Success(Long(n))
  {
  }

  /** Every `long`, boxed or as its decimal text, is stored unchanged as an integer in a flags-like field. */
  lemma FlagsLongStoredRaw(env: Env, t: FieldType, n: Int64)
    requires IsFlagsLike(t)
    ensures ToDbValue(env, t, Long(n)) == Success(Long(n))
    ensures ToDbValue(env, t, Str(Render(n))) == Success(Long(n))
  {
    RenderRoundTrip(n);
  }

  /** A number used in place of an enum (an `int` field holding a boxed 7) is stored as the integer 7. */
  lemma NumericCodeStoredAsInteger(env: Env, h: nat)
    requires env.objectText(h) == "7"
    ensures ToDbValue(env, Numeric(Int32), Obj(h)) == Success(Long(7))
  {
    assert Render(7) == "7";
    RenderRoundTrip(7);
  }

  /**
   * A combined flags member such as `Read|Write` has the text `Read, Write`, which is not an
   * integer: it is bound as the serializer's trimmed text, not as a raw integer.
   */
  lemma FlagsMemberStoredAsText(env: Env, h: nat)
    requires env.objectText(h) == "Read, Write" && env.serialize(Obj(h)) == Some("3")
    ensures ToDbValue(env, FlagsEnum("Access", Int32), Obj(h)) == Success(Str("3"))
    ensures ToQuotedString(env, FlagsEnum("Access", Int32), Obj(h)) == Success("3")
  {
    assert TryParse("Read, Write") == None;
    assert TrimQuotes("3") == "3";
  }

  /**
   * For a flags-like field the inline literal never reinterprets the value as an enum member,
   * and is the serializer's own text, trimmed and left unquoted.
   */
  lemma FlagsLiteralIsBareText(env: Env, t: FieldType, v: Value, toObject: (FieldType, Int64) -> Result<Value, Error>)
    requires IsFlagsLike(t)
    ensures ToQuotedString(env.(enumToObject := toObject), t, v) == ToQuotedString(env, t, v)
    ensures env.serialize(v).None? ==> ToQuotedString(env, t, v) == Failure(NullReference)
    ensures env.serialize(v).Some? ==> ToQuotedString(env, t, v) == Success(TrimQuotes(env.serialize(v).value))
  {
  }

  /**
   * The two write paths agree: for a field stored by name the inline literal is the dialect's
   * quoting of exactly the parameter text (and both fail alike); for a flags-like field whose
   * value is not integer text, the literal is the parameter text itself.
   */
  lemma WritePathsAgree(env: Env, t: FieldType, v: Value)
    ensures !IsFlagsLike(t) ==>
      (forall x :: ToDbValue(env, t, v) == Success(Str(x)) ==> ToQuotedString(env, t, v) == Success(env.quote(Some(x))))
    ensures !IsFlagsLike(t) && ToDbValue(env, t, v).Failure? ==> ToQuotedString(env, t, v) == Failure(ToDbValue(env, t, v).error)
    ensures IsFlagsLike(t) && ParsedLong(env, v).None? ==>
      (forall x :: ToDbValue(env, t, v) == Success(Str(x)) ==> ToQuotedString(env, t, v) == Success(x))
    ensures ToDbValue(env, t, v) == Success(Null) ==> ToQuotedString(env, t, v) == Failure(NullReference)
  {
  }

  /** Stored text is already trimmed: trimming it again changes nothing. */
  lemma StoredTextIsTrimmed(env: Env, t: FieldType, v: Value, x: string)
    requires ToDbValue(env, t, v) == Success(Str(x))
    ensures TrimQuotes(x) == x
  {
  }

  /**
   * Reading back what a flags-like field wrote for a `long` (boxed or as its text) converts that
   * same `long` to the field's type code.
   */
  lemma ReadAfterWrite(env: Env, t: FieldType, n: Int64)
    requires IsFlagsLike(t)
    ensures FromDbValue(env, t, ToDbValue(env, t, Long(n)).value) == env.changeType(Long(n), t.GetTypeCode())
    ensures FromDbValue(env, t, ToDbValue(env, t, Str(Render(n))).value) == env.changeType(Long(n), t.GetTypeCode())
  {
    FlagsLongStoredRaw(env, t, n);
  }

  /**
   * A flags-like field, given a non-null value whose text is not an integer (a combined flags
   * member, say): the value's own serializer text is bound with its quotes trimmed, or `null`
   * when the serializer returns `null`.
   */
  lemma FlagsTextWrite(env: Env, t: FieldType, v: Value)
    requires IsFlagsLike(t) && !v.Null? && ParsedLong(env, v).None?
    ensures env.serialize(v).Some? ==> ToDbValue(env, t, v) == Success(Str(TrimQuotes(env.serialize(v).value)))
    ensures env.serialize(v).None? ==> ToDbValue(env, t, v) == Success(Null)
  {
  }

  /**
   * A field stored by name, given a value whose text is the integer `n`: the value is replaced
   * by the enum member `Enum.ToObject` returns for `n`, and both write paths use that member's
   * serializer text with its quotes trimmed. A failing lookup fails both paths alike.
   */
  lemma NameStoredIntegerWrite(env: Env, t: FieldType, v: Value, n: Int64)
    requires !IsFlagsLike(t) && !v.Null? && ParsedLong(env, v) == Some(n)
    ensures env.enumToObject(t, n).Failure? ==>
      ToDbValue(env, t, v) == Failure(env.enumToObject(t, n).error) &&
      ToQuotedString(env, t, v) == Failure(env.enumToObject(t, n).error)
    ensures env.enumToObject(t, n).Success? && env.serialize(env.enumToObject(t, n).value).Some? ==>
      ToDbValue(env, t, v) == Success(Str(TrimQuotes(env.serialize(env.enumToObject(t, n).value).value))) &&
      ToQuotedString(env, t, v) == Success(env.quote(Some(TrimQuotes(env.serialize(env.enumToObject(t, n).value).value))))
    ensures env.enumToObject(t, n).Success? && env.serialize(env.enumToObject(t, n).value).None? ==>
      ToDbValue(env, t, v) == Success(Null) && ToQuotedString(env, t, v) == Failure(NullReference)
  {
  }

  /**
   * A field stored by name, given a non-null value whose text is not an integer: both write
   * paths use the value's own serializer text with its quotes trimmed, and `Enum.ToObject` is
   * never consulted.
   */
  lemma NameStoredTextWrite(env: Env, t: FieldType, v: Value, toObject: (FieldType, Int64) -> Result<Value, Error>)
    requires !IsFlagsLike(t) && !v.Null? && ParsedLong(env, v).None?
    ensures ToDbValue(env.(enumToObject := toObject), t, v) == ToDbValue(env, t, v)
    ensures env.serialize(v).Some? ==>
      ToDbValue(env, t, v) == Success(Str(TrimQuotes(env.serialize(v).value))) &&
      ToQuotedString(env, t, v) == Success(env.quote(Some(TrimQuotes(env.serialize(v).value))))
    ensures env.serialize(v).None? ==>
      ToDbValue(env, t, v) == Success(Null) && ToQuotedString(env, t, v) == Failure(NullReference)
  {
  }

  /**
   * Reading back what a field stored by name wrote: the member lookup, ignoring case, receives
   * exactly the trimmed serializer text of the member that was written.
   */
  lemma NameStoredReadAfterWrite(env: Env, t: FieldType, v: Value, w: Value, s: string)
    requires !IsFlagsLike(t) && !v.Null?
    requires ToMember(env, t, v) == Success(w) && env.serialize(w) == Some(s)
    ensures FromDbValue(env, t, ToDbValue(env, t, v).value) == env.enumParse(t, TrimQuotes(s), true)
  {
  }

  /** A plain enum member whose text is `Red` and which the serializer renders as `"Red"` is stored as `Red` and written inline as the quoting of `Red`. */
  lemma PlainMemberStoredByName(env: Env, h: nat)
    requires env.objectText(h) == "Red" && env.serialize(Obj(h)) == Some("\"Red\"")
    ensures ToDbValue(env, PlainEnum("Color", Int32), Obj(h)) == Success(Str("Red"))
    ensures ToQuotedString(env, PlainEnum("Color", Int32), Obj(h)) == Success(env.quote(Some("Red")))
  {
    TrimQuotedWord();
  }
}

=== FILE: long_text.dfy ===
/**
 * Decimal text of 64-bit integers: the part of `long.TryParse` and `long.ToString()`
 * the enum converter relies on when it asks whether a value's text is an integer.
 */
module LongText {
  import opened Wrappers

  const MinLong: int := -0x8000_0000_0000_0000
  const MaxLong: int := 0x7FFF_FFFF_FFFF_FFFF
  const MaxULong: int := 0xFFFF_FFFF_FFFF_FFFF

  /** The values of a .NET `long`. */
  type Int64 = n: int | MinLong <= n <= MaxLong

  /** The values of a .NET `ulong`. */
  type UInt64 = n: int | 0 <= n <= MaxULong

  predicate IsDigit(c: char) {
    '0' <= c <= '9'
  }

  predicate AllDigits(s: string) {
    forall k :: 0 <= k < |s| ==> IsDigit(s[k])
  }

  function DigitValue(c: char): (d: nat)
    requires IsDigit(c)
    ensures d < 10
  {
    (c as int) - ('0' as int)
  }

  function DigitChar(d: nat): (c: char)
    requires d < 10
    ensures IsDigit(c) && DigitValue(c) == d
  {
    (('0' as int) + d) as char
  }

  /** The number a string of decimal digits denotes (most significant digit first). */
  function DigitsValue(s: string): nat
    requires AllDigits(s)
  {
    if |s| == 0 then 0 else DigitsValue(s[..|s| - 1]) * 10 + DigitValue(s[|s| - 1])
  }

  /** The shortest decimal digit string of `n`. */
  function Digits(n: nat): (s: string)
    ensures |s| > 0 && AllDigits(s)
    ensures n > 0 ==> s[0] != '0'
  {
    if n < 10 then [DigitChar(n)] else Digits(n / 10) + [DigitChar(n % 10)]
  }

  /** `long.ToString()`: an optional minus sign followed by the shortest digit string. */
  function Render(n: int): (r: string)
    ensures Canonical(r)
  {
    if n < 0 then "-" + Digits(-n) else Digits(n)
  }

  /** A digit string without a redundant leading zero. */
  predicate CanonicalDigits(d: string) {
    |d| > 0 && AllDigits(d) && (d[0] == '0' ==> |d| == 1)
  }

  /** The one spelling `Render` produces for each value: no plus sign, no leading zeros, no `-0`. */
  predicate Canonical(s: string) {
    if |s| > 0 && s[0] == '-' then CanonicalDigits(s[1..]) && s[1..] != "0"
    else CanonicalDigits(s)
  }

  /** Interprets the unsigned part of an integer literal, with its sign, range-checked as a `long`. */
  function SignedLong(negative: bool, d: string): Option<Int64> {
    if |d| == 0 || !AllDigits(d) then None
    else
      var m: int := if negative then 0 - DigitsValue(d) as int else DigitsValue(d);
      if MinLong <= m <= MaxLong then Some(m) else None
  }

  /**
   * `long.TryParse(s, out n)`: an optional `+` or `-`, then one or more ASCII digits,
   * and a value that fits a `long`; anything else fails.
   */
  function TryParse(s: string): (r: Option<Int64>)
    ensures r.Some? ==> |s| > 0 && AllDigits(s[1..]) && (IsDigit(s[0]) || s[0] == '-' || s[0] == '+')
    ensures r.Some? && r.value < 0 ==> s[0] == '-'
  {
    if |s| > 0 && (s[0] == '-' || s[0] == '+') then SignedLong(s[0] == '-', s[1..])
    else SignedLong(false, s)
  }

  lemma {:induction false} DigitsRoundTrip(n: nat)
    ensures DigitsValue(Digits(n)) == n
  {
    if n >= 10 {
      var s := Digits(n);
      assert s[..|s| - 1] == Digits(n / 10);
      DigitsRoundTrip(n / 10);
    }
  }

  lemma {:induction false} LeadingDigitPositive(d: string)
    requires |d| > 0 && AllDigits(d) && d[0] != '0'
    ensures DigitsValue(d) >= 1
  {
    if |d| > 1 {
      LeadingDigitPositive(d[..|d| - 1]);
    }
  }

  lemma {:induction false} CanonicalDigitsRoundTrip(d: string)
    requires CanonicalDigits(d)
    ensures Digits(DigitsValue(d)) == d
  {
    if |d| > 1 {
      var p := d[..|d| - 1];
      LeadingDigitPositive(p);
      CanonicalDigitsRoundTrip(p);
      var n := DigitsValue(d);
      assert n / 10 == DigitsValue(p) && n % 10 == DigitValue(d[|d| - 1]);
      assert DigitChar(n % 10) == d[|d| - 1];
      assert d == p + [d[|d| - 1]];
    }
  }

  /** Rendering a `long` and parsing the text back yields the same `long`. */
  lemma RenderRoundTrip(n: Int64)
    ensures TryParse(Render(n)) == Some(n)
  {
    var a: nat := if n < 0 then -(n as int) else n as int;
    DigitsRoundTrip(a);
    if n < 0 {
      assert Render(n)[1..] == Digits(a);
    }
  }

  /** A canonical literal that parses to `n` is exactly `Render(n)`. */
  lemma CanonicalIsRender(s: string, n: Int64)
    requires TryParse(s) == Some(n) && Canonical(s)
    ensures s == Render(n)
  {
    if s[0] == '-' {
      var d := s[1..];
      CanonicalDigitsRoundTrip(d);
      assert n as int == 0 - DigitsValue(d) as int;
      assert s == "-" + d;
    } else {
      CanonicalDigitsRoundTrip(s);
    }
  }

  /** `Render` produces exactly the canonical spellings: text parses to `n` and is canonical iff it is `Render(n)`. */
  lemma RenderExactlyCanonical(s: string, n: Int64)
    ensures TryParse(s) == Some(n) && Canonical(s) <==> s == Render(n)
  {
    if s == Render(n) {
      RenderRoundTrip(n);
    }
    if TryParse(s) == Some(n) && Canonical(s) {
      CanonicalIsRender(s, n);
    }
  }

  /**
   * `long.TryParse` accepts every digit string, with or without a leading `+` or `-`, whose
   * value fits a `long`, leading zeros included, and rejects it when the value does not fit.
   */
  lemma TryParseDigits(d: string)
    requires |d| > 0 && AllDigits(d)
    ensures DigitsValue(d) <= MaxLong ==>
      TryParse(d).Some? && TryParse(d).value == DigitsValue(d) &&
      TryParse("+" + d).Some? && TryParse("+" + d).value == DigitsValue(d)
    ensures DigitsValue(d) > MaxLong ==> TryParse(d).None? && TryParse("+" + d).None?
    ensures DigitsValue(d) <= -MinLong ==>
      TryParse("-" + d).Some? && TryParse("-" + d).value == 0 - DigitsValue(d) as int
    ensures DigitsValue(d) > -MinLong ==> TryParse("-" + d).None?
  {
    assert ("+" + d)[1..] == d;
    assert ("-" + d)[1..] == d;
  }

  /** Non-canonical spellings parse too: `+7` and `007` are 7, and `-0` is 0. */
  lemma NonCanonicalLiterals()
    ensures TryParse("+7") == Some(7) && TryParse("007") == Some(7) && TryParse("-0") == Some(0)
  {
    TryParseDigits("7");
    assert "007"[..2] == "00" && "00"[..1] == "0" && "0"[..0] == "";
    TryParseDigits("007");
    TryParseDigits("0");
    assert "+" + "7" == "+7";
    assert "-" + "0" == "-0";
  }
}

=== FILE: quote_trim.dfy ===
/**
 * `string.Trim('"')`: removal of every leading and every trailing double-quote character.
 * The enum converter applies it to the serializer's output to undo the serializer's quoting.
 */
module QuoteTrim {

  const Quote: char := '"'

  predicate AllQuotes(s: string) {
    forall k :: 0 <= k < |s| ==> s[k] == Quote
  }

  /** Neither end of `s` is a double quote (vacuously so for the empty string). */
  predicate NoBoundaryQuote(s: string) {
    |s| == 0 || (s[0] != Quote && s[|s| - 1] != Quote)
  }

  /** `r` is the slice `s[i..j]` and everything outside the slice is a double quote. */
  predicate PaddedAt(s: string, r: string, i: int, j: int) {
    0 <= i <= j <= |s| && s[i..j] == r && AllQuotes(s[..i]) && AllQuotes(s[j..])
  }

  ghost predicate QuotePadded(s: string, r: string) {
    exists i, j :: PaddedAt(s, r, i, j)
  }

  /** `Trim('"')`, one quote at a time from either end. */
  function TrimQuotes(s: string): (r: string)
    ensures NoBoundaryQuote(r)
    ensures |r| <= |s|
    decreases |s|
  {
    if |s| > 0 && s[0] == Quote then TrimQuotes(s[1..])
    else if |s| > 0 && s[|s| - 1] == Quote then TrimQuotes(s[..|s| - 1])
    else s
  }

  /** Putting a quote in front of a padded string keeps the same infix padded. */
  lemma PaddedPrepend(s: string, r: string, i: int, j: int)
    requires |s| > 0 && s[0] == Quote && PaddedAt(s[1..], r, i, j)
    ensures PaddedAt(s, r, i + 1, j + 1)
  {
    var t := s[1..];
    assert s[i + 1..j + 1] == t[i..j];
    assert s[j + 1..] == t[j..];
    var front := s[..i + 1];
    forall k | 0 <= k < |front|
      ensures front[k] == Quote
    {
      if k > 0 {
        assert front[k] == t[..i][k - 1];
      }
    }
  }

  /** Putting a quote after a padded string keeps the same infix padded. */
  lemma PaddedAppend(s: string, r: string, i: int, j: int)
    requires |s| > 0 && s[|s| - 1] == Quote && PaddedAt(s[..|s| - 1], r, i, j)
    ensures PaddedAt(s, r, i, j)
  {
    var t := s[..|s| - 1];
    assert s[i..j] == t[i..j];
    assert s[..i] == t[..i];
    var back := s[j..];
    forall k | 0 <= k < |back|
      ensures back[k] == Quote
    {
      if k < |t| - j {
        assert back[k] == t[j..][k];
      }
    }
  }

  /** The trimmed text is an infix of the input with only double quotes cut from either side. */
  lemma {:induction false} TrimQuotesPadded(s: string)
    ensures QuotePadded(s, TrimQuotes(s))
    decreases |s|
  {
    var r := TrimQuotes(s);
    if |s| > 0 && s[0] == Quote {
      TrimQuotesPadded(s[1..]);
      var i, j :| PaddedAt(s[1..], r, i, j);
      PaddedPrepend(s, r, i, j);
    } else if |s| > 0 && s[|s| - 1] == Quote {
      TrimQuotesPadded(s[..|s| - 1]);
      var i, j :| PaddedAt(s[..|s| - 1], r, i, j);
      PaddedAppend(s, r, i, j);
    } else {
      assert PaddedAt(s, s, 0, |s|);
    }
  }

  /** Any quote-padded infix of `s` without a boundary quote is `TrimQuotes(s)`: the trim is unique. */
  lemma {:induction false} TrimQuotesUnique(s: string, r: string, i: int, j: int)
    requires PaddedAt(s, r, i, j) && NoBoundaryQuote(r)
    ensures r == TrimQuotes(s)
    decreases |s|
  {
    if |s| > 0 && s[0] == Quote {
      var t := s[1..];
      if i == 0 {
        if j > 0 {
          assert false;
        }
        assert t[0..] == s[1..];
        TrimQuotesUnique(t, r, 0, 0);
      } else {
        assert t[i - 1..j - 1] == s[i..j];
        assert t[..i - 1] == s[1..i];
        assert t[j - 1..] == s[j..];
        TrimQuotesUnique(t, r, i - 1, j - 1);
      }
    } else if |s| > 0 && s[|s| - 1] == Quote {
      var t := s[..|s| - 1];
      if j == |s| {
        assert false;
      } else {
        assert t[i..j] == s[i..j];
        assert t[..i] == s[..i];
        assert t[j..] == s[j..|s| - 1];
        TrimQuotesUnique(t, r, i, j);
      }
    } else {
      if i > 0 || j < |s| {
        assert false;
      }
      assert r == s[0..|s|] == s;
    }
  }

  /** Trimming is idempotent. */
  lemma {:induction false} TrimQuotesIdempotent(s: string)
    ensures TrimQuotes(TrimQuotes(s)) == TrimQuotes(s)
  {
    var r := TrimQuotes(s);
    assert PaddedAt(r, r, 0, |r|);
    TrimQuotesUnique(r, r, 0, |r|);
  }

  /** A serializer's quoted rendering of `"Red"` trims to `Red`. */
  lemma TrimQuotedWord()
    ensures TrimQuotes("\"Red\"") == "Red"
  {
    assert "\"Red\""[1..] == "Red\"";
    assert "Red\""[..3] == "Red";
  }
}

=== FILE: reference_type_converter.dfy ===
/**
 * `ReferenceTypeConverter`: any reference type without a converter of its own is stored as
 * serialized text in a maximum-length string column; `byte[]` is handed to the driver as is.
 */
module ReferenceTypeConverter {
  import opened Wrappers
  import opened ClrTypes
  import opened Collaborators

  /** The column used when no length is declared: the dialect's maximum-length string column. */
  function ColumnDefinition(env: Env): (r: string)
    ensures r == env.maxStringColumn
  {
    MaxColumnDefinition(env)
  }

  function MaxColumnDefinition(env: Env): (r: string)
    ensures r == env.maxStringColumn
  {
    env.maxStringColumn
  }

  /** A declared length takes precedence; without one the column is of maximum length. */
  function GetColumnDefinition(env: Env, length: Option<int>): (r: string)
    ensures length.None? ==> r == MaxColumnDefinition(env) && r == ColumnDefinition(env)
    ensures length.Some? ==> r == env.boundedStringColumn(length.value)
  {
    if length.Some? then env.boundedStringColumn(length.value) else MaxColumnDefinition(env)
  }

  /** The serialized text, quoted by the dialect as one literal, with no quote stripping. */
  function ToQuotedString(env: Env, t: FieldType, v: Value): (r: string)
    ensures r == env.quote(env.serialize(v))
  {
    env.quote(env.serialize(v))
  }

  /** The parameter value: a `byte[]` field's value unchanged, otherwise the serialized text. */
  function ToDbValue(env: Env, t: FieldType, v: Value): (r: Value)
    ensures t.ByteArray? ==> r == v
    ensures !t.ByteArray? ==> (r.Null? || r.Str?) && (r.Str? <==> env.serialize(v).Some?)
    ensures !t.ByteArray? && r.Str? ==> env.serialize(v) == Some(r.s)
  {
    if t == ByteArray then v else TextValue(env.serialize(v))
  }

  /** The stored text, deserialized into the field type; a `null` fails at `ToString()`. */
  function FromDbValue(env: Env, t: FieldType, v: Value): (r: Result<Value, Error>)
    ensures v.Null? ==> r == Failure(NullReference)
    ensures v.Str? ==> r == env.deserialize(v.s, t)
    ensures !v.Null? ==> r == env.deserialize(ToText(env, v).value, t)
  {
    match ToText(env, v)
    case None => Failure(NullReference)
    case Some(text) => env.deserialize(text, t)
  }

  /** The inline literal is the dialect's quoting of exactly what would be bound as a parameter. */
  lemma LiteralQuotesParameter(env: Env, t: FieldType, v: Value)
    requires !t.ByteArray?
    ensures ToQuotedString(env, t, v) == env.quote(if ToDbValue(env, t, v).Str? then Some(ToDbValue(env, t, v).s) else None)
  {
  }

  /**
   * Writing then reading a non-`byte[]` value is the serializer's own round trip, so the
   * converter preserves a value exactly when the serializer does.
   */
  lemma RoundTripIsSerializerRoundTrip(env: Env, t: FieldType, v: Value, s: string)
    requires !t.ByteArray? && env.serialize(v) == Some(s)
    ensures FromDbValue(env, t, ToDbValue(env, t, v)) == env.deserialize(s, t)
    ensures env.deserialize(s, t) == Success(v) ==> FromDbValue(env, t, ToDbValue(env, t, v)) == Success(v)
  {
  }

  /**
   * On a `byte[]` field the read path deserializes the array's type name, not its contents:
   * two different byte arrays read back identically.
   */
  lemma ByteArrayReadIgnoresContent(env: Env, b1: seq<bv8>, b2: seq<bv8>)
    ensures ToDbValue(env, ByteArray, Bytes(b1)) == Bytes(b1)
    ensures FromDbValue(env, ByteArray, Bytes(b1)) == FromDbValue(env, ByteArray, Bytes(b2))
    ensures FromDbValue(env, ByteArray, Bytes(b1)) == env.deserialize("System.Byte[]", ByteArray)
  {
  }
}

=== FILE: row_version_converter.dfy ===
/**
 * `RowVersionConverter`: an optimistic-concurrency token kept in a 64-bit integer column and
 * read back as a `ulong`. Writing is left to the inherited numeric defaults.
 */
module RowVersionConverter {
  import opened Wrappers
  import opened LongText
  import opened ClrTypes
  import opened Collaborators

  /** The column type, the same for every dialect. */
  function ColumnDefinition(): (r: string)
    ensures r == "BIGINT"
  {
    "BIGINT"
  }

  /** `(ulong)ConvertNumber(typeof(ulong), value)`: the unboxing cast succeeds only on a boxed `ulong`. */
  function FromDbRowVersion(env: Env, v: Value): (r: Result<UInt64, Error>)
    ensures r.Success? ==> env.convertNumber(UInt64, v) == Success(ULong(r.value))
    ensures env.convertNumber(UInt64, v).Success? && env.convertNumber(UInt64, v).value.ULong? ==>
      r == Success(env.convertNumber(UInt64, v).value.u)
    ensures env.convertNumber(UInt64, v).Failure? ==> r == Failure(env.convertNumber(UInt64, v).error)
    ensures env.convertNumber(UInt64, v) == Success(Null) ==> r == Failure(NullReference)
    ensures (env.convertNumber(UInt64, v).Success? && !env.convertNumber(UInt64, v).value.ULong?
             && !env.convertNumber(UInt64, v).value.Null?) ==> r == Failure(InvalidCast)
  {
    match env.convertNumber(UInt64, v)
    case Failure(e) => Failure(e)
    case Success(ULong(u)) => Success(u)
    case Success(Null) => Failure(NullReference)
    case Success(_) => Failure(InvalidCast)
  }

  /** A database `null` stays `null`; anything else is widened to a `ulong`. */
  function FromDbValue(env: Env, t: FieldType, v: Value): (r: Result<Value, Error>)
    ensures v.Null? ==> r == Success(Null)
    ensures !v.Null? ==> r == env.convertNumber(UInt64, v)
  {
    if v != Null then env.convertNumber(UInt64, v) else Success(Null)
  }

  /** The generic read path and the explicit accessor agree on every non-null value, whatever the field type. */
  lemma FromDbValueAgreesWithRowVersion(env: Env, t: FieldType, v: Value, u: UInt64)
    requires !v.Null?
    ensures FromDbValue(env, t, v) == Success(ULong(u)) <==> FromDbRowVersion(env, v) == Success(u)
  {
  }
}

=== FILE: value_type_converter.dfy ===
/**
 * `ValueTypeConverter`: value types without a converter of their own share the reference-type
 * column and literal, but bind a deserialized value and read through the dialect's default.
 */
module ValueTypeConverter {
  import opened Wrappers
  import opened ClrTypes
  import opened Collaborators
  import ReferenceTypeConverter

  /** The column used when no length is declared: the dialect's maximum-length string column. */
  function ColumnDefinition(env: Env): (r: string)
    ensures r == env.maxStringColumn
  {
    MaxColumnDefinition(env)
  }

  function MaxColumnDefinition(env: Env): (r: string)
    ensures r == env.maxStringColumn
  {
    env.maxStringColumn
  }

  /** A declared length takes precedence; without one the column is of maximum length. */
  function GetColumnDefinition(env: Env, length: Option<int>): (r: string)
    ensures length.None? ==> r == MaxColumnDefinition(env) && r == ColumnDefinition(env)
    ensures length.Some? ==> r == env.boundedStringColumn(length.value)
  {
    if length.Some? then env.boundedStringColumn(length.value) else MaxColumnDefinition(env)
  }

  /** The serialized text, quoted by the dialect as one literal. */
  function ToQuotedString(env: Env, t: FieldType, v: Value): (r: string)
    ensures r == env.quote(env.serialize(v))
  {
    env.quote(env.serialize(v))
  }

  /** The parameter value: the value's own text deserialized into the field type. */
  function ToDbValue(env: Env, t: FieldType, v: Value): (r: Result<Value, Error>)
    ensures v.Null? ==> r == Failure(NullReference)
    ensures v.Str? ==> r == env.deserialize(v.s, t)
    ensures !v.Null? ==> r == env.deserialize(ToText(env, v).value, t)
  {
    match ToText(env, v)
    case None => Failure(NullReference)
    case Some(text) => env.deserialize(text, t)
  }

  /** Reading defers entirely to the dialect's default coercion. */
  function FromDbValue(env: Env, t: FieldType, v: Value): (r: Result<Value, Error>)
    ensures r == env.dialectFromDbValue(v, t)
  {
    env.dialectFromDbValue(v, t)
  }

  /** The value-type converter's write path is the reference-type converter's read path. */
  lemma WriteIsReferenceRead(env: Env, t: FieldType, v: Value)
    ensures ToDbValue(env, t, v) == ReferenceTypeConverter.FromDbValue(env, t, v)
  {
  }

  /** Column definitions and inline literals coincide with the reference-type converter's. */
  lemma SharesReferenceStorage(env: Env, t: FieldType, v: Value, length: Option<int>)
    ensures ColumnDefinition(env) == ReferenceTypeConverter.ColumnDefinition(env)
    ensures GetColumnDefinition(env, length) == ReferenceTypeConverter.GetColumnDefinition(env, length)
    ensures ToQuotedString(env, t, v) == ReferenceTypeConverter.ToQuotedString(env, t, v)
  {
  }
}

=== FILE: wrappers.dfy ===
/** Option and Result: the model's stand-ins for a .NET `null` and for a thrown exception. */
module Wrappers {

  /** A value that may be absent, as a .NET reference that may be `null`. */
  datatype Option<+T> = None | Some(value: T)

  /** Either a computed value or the exception a conversion would have thrown. */
  datatype Result<+R, +E> = Success(value: R) | Failure(error: E)
}
